=== FILE: README.md ===
# Stockfish trainer: game-session controller in Dafny

This project models the game-session logic of a Tk chess trainer. A person
plays against the Stockfish engine, watches the engine play itself, or drills
a scripted opening line. The model covers two versions of the controller:

- `stockfish_trainer/gui.py` is the packaged version, with opening training
  (module `Trainer`);
- `fishpython.py` is the earlier single-file version without training
  (module `Classic`).

The logic that the two versions share line for line is defined once, in
module `Game`. That covers the clock tick and flag, undo/redo, the
engine-queue handler, automatic games, end of game and resignation.

Chess itself is an oracle. The board is the sequence of moves played from the
initial position, so White is to move exactly when that sequence has even
length (`Chess.Turn`). The `Chess.Rules` record is a parameter of the model.
It holds four total functions of that sequence:

- legality of a move;
- game over;
- the result: "1-0", "0-1", "1/2-1/2" or "*" (`Unfinished`);
- parsing of move notation.

The only assumption made about the oracle is `SanSound`: notation parsing
yields either a move that is legal where it is parsed or the null move
(`Chess.NullMove`, which python-chess returns for "--", "Z0", "0000" and
"@@@@"). Only the training-line lemmas use it. A null entry can stand in a
loaded line. python-chess never counts it among the legal moves, so auto-play
would end the line there, and the click checks would refuse it.

Each event is a pure step function. The controller's state is an immutable
record (`Game.State`, and in the trainer `Trainer.Session` = state plus
`Training.Training`). Each step returns the new state and the engine request
the source schedules with `after` (`NoRequest`, `ManualMoveRequest` or
`AutoMoveRequest`). The shared steps also return whether `end_game` ran. The
worker threads and the queue are replaced by handling one message
(`Game.HandleEngineMessage`). The current time (`datetime.now()`) and the
answer to the resignation dialog are parameters.

Modules, leaves first: `Wrappers` (Option), `Utils` (clamp), `Chess`
(vocabulary and oracle), `Geometry` (square/pixel mapping), `Clock`, `Stats`,
`Game` (shared controller), `Training` (line loading), `Classic`, `Trainer`.

Behaviour of the code as written that the model keeps and states as lemmas:

- Starting a game calls `start_clock`, which at once runs one `tick_clock`.
  A new game (manual or automatic) therefore starts with White one second
  below `clamp(minutes, 1, 180) * 60`, and Black exactly at that value.
- `flag_time` leaves automatic mode before it tests `auto_mode`. A flag in an
  automatic game is therefore scored as a win or loss for the player
  (`Game.AutoGameFlagScoredForPlayer`).
- The `engine_move_auto` handler calls `stop_auto_game` before `end_game`. So
  `end_game` never sees an automatic game on that path, and the game is scored
  for the player (`Game.AutoGameEndScoredForPlayer`). A late automatic reply
  that arrives after the user stopped automatic mode still ends the game.
  The unfinished result "*" then counts as a loss (`Game.LateAutoReplyEndsGame`).
- When the player's move ends the game during training, `make_move` only
  finishes the line. `end_game` is not called, so the game stays active and
  nothing is scored (`Trainer.GameOverDuringTrainingNotScored`).
- Engine moves, training auto-play and redo do not empty the redo stack. Only
  `make_move`, `start_new_game` and `start_auto_game` do.
- The increment of an engine reply is credited before the legality test, so
  it is credited even when the reply is rejected.
- The manual-reply handler does not look at `game_active`. A legal reply that
  arrives after the game was resigned or flagged is still pushed, and it ends
  the game again if the board is then over (`Game.HandleEngineMessage`).

## Model

| member | source | states |
|---|---|---|
| Utils.Clamp | stockfish_trainer/utils.py:3-4 | When vmin <= vmax the result lies in [vmin, vmax]; a value inside the range is returned unchanged; below vmin the result is vmin; above vmax it is max(vmin, vmax) |
| Utils.ClampIdempotent | stockfish_trainer/utils.py:3-4 | Clamping an already clamped value changes nothing |
| Utils.ClampMonotone | fishpython.py:40-41 | Clamping preserves the order of two values |
| Chess.TurnAlternates | stockfish_trainer/gui.py:879-891 | Every push hands the turn to the other side, so one auto-played move gives the turn back to the player |
| Chess.TopOfPush | stockfish_trainer/gui.py:1370-1375 | A pushed move is the new top of the move stack, and popping it makes the previous top the last move again |
| Chess.LegalGamePush | stockfish_trainer/gui.py:1225-1227 | Pushing a move that is legal in the current position keeps every move of the game legal where it was played |
| Chess.LegalGamePrefix | stockfish_trainer/gui.py:1373 | Popping moves off a legal game leaves a legal game |
| Geometry.SquareAt | stockfish_trainer/gui.py:966 | The square built from a file and a rank has that file and that rank |
| Geometry.SquareToCoords | stockfish_trainer/gui.py:937-947 | The top-left pixel of a square's cell lies on the board, the whole 80-pixel cell fits on the board, and the cell is aligned to the 80-pixel grid |
| Geometry.CoordsToSquare | stockfish_trainer/gui.py:954-966 | A pixel maps to a square exactly when both coordinates lie in [PADDING, PADDING + BOARD_SIZE), and then the pixel lies inside that square's cell; otherwise the result is None |
| Geometry.CellRoundTrip | fishpython.py:447-474 | Every pixel of a square's cell maps back to that square, with or without the board flipped |
| Geometry.CornerRoundTrip | stockfish_trainer/gui.py:937-966 | Mapping a square to its corner pixel and back yields the square, for either orientation |
| Geometry.FlipIsPointReflection | fishpython.py:447-456 | Flipping the board reflects every cell through the centre of the board |
| Clock.CreditIncrement | stockfish_trainer/gui.py:1165-1168 | A positive increment is added to the mover only; the other side's time is unchanged; a zero or negative increment changes nothing |
| Clock.Countdown | stockfish_trainer/gui.py:1454-1461 | The ticking side loses one second, floored at 0; the other side's time is unchanged |
| Stats.Classify | stockfish_trainer/gui.py:1675-1691 | A draw result is a draw; the player's colour winning is a win; every other result, including an unfinished one, is a loss |
| Stats.ClassifyColourSymmetric | stockfish_trainer/gui.py:1680 | Swapping the colour of both the result and the player does not change the verdict |
| Stats.DecisiveResultHasOneWinner | stockfish_trainer/gui.py:1680 | A decisive result is a win for exactly one colour and a loss for the other |
| Stats.RecordVerdict | stockfish_trainer/gui.py:1675-1690 | Scoring a game adds one game and exactly one win, loss or draw. A win extends the streak, sets the best streak to max(best, new streak) and the last result to W. A loss or a draw resets the streak, keeps the best streak and sets the last result to L or D. The time of the game is recorded |
| Stats.RecordEndGame | stockfish_trainer/gui.py:1666-1696 | Every ended game is counted and timed. A game that was automatic changes nothing else. Any other game is exactly one draw (streak reset, D), win (streak extended, best streak max(best, streak), W) or loss (streak reset, L), classified from the result and the player's colour, with all other fields unchanged |
| Stats.RecordFlag | stockfish_trainer/gui.py:1470-1481 | A flag counts and times one game. When the flagged side is the player's colour it is a loss: streak reset, last result L, all else unchanged. Otherwise it is a win: streak extended, best streak max(best, streak), last result W, all else unchanged |
| Stats.RecordResign | stockfish_trainer/gui.py:1656-1660 | A resignation adds one game and one loss, resets the current streak and keeps wins, draws and the best streak |
| Game.Initial | stockfish_trainer/gui.py:40-61 | The constructor starts with an empty board and redo stack, no game, automatic mode or clock running, the player on White, both clocks at 300 seconds with no increment, and the loaded statistics and engine readiness as given |
| Game.InitialValid | fishpython.py:175-196 | The constructor's state satisfies the controller invariant whenever the loaded statistics are consistent |
| Game.StopAutoGame | stockfish_trainer/gui.py:1731-1737 | Stopping automatic mode clears the flag and changes nothing else |
| Game.PlayMove | fishpython.py:689-695 | A committed engine or training move credits the increment to the side to move, pushes the move and makes it the last move; the redo stack, statistics and mode flags are unchanged |
| Game.PlayMoveValid | fishpython.py:693-695 | Committing a legal move preserves the controller invariant |
| Game.EndGame | fishpython.py:1128-1161 | Ending a game stops it, the clock and automatic mode, and scores it from the board result; it counts as automatic exactly when automatic mode was on when the game ended. Every other field (board, times, settings, engine readiness, orientation) is unchanged |
| Game.FlagTime | stockfish_trainer/gui.py:1465-1483 | A flag stops the game, the clock and automatic mode, and scores the flagged side's loss or win for the player. Every other field is unchanged |
| Game.Tick | stockfish_trainer/gui.py:1451-1463 | Nothing changes unless the clock runs and the game is active. Otherwise only the side to move loses one second, floored at 0, and the game stays active exactly while that time is positive. Reaching 0 stops the clock and automatic mode and scores the flag. No other field changes, and non-negative clocks stay non-negative |
| Game.AutoGameFlagScoredForPlayer | fishpython.py:933-948 | A flag during an automatic game still scores a win or loss for the player, a loss exactly when the flagged side is the player's colour |
| Game.Undo | stockfish_trainer/gui.py:1370-1377 | On a non-empty board outside automatic mode, the top move goes onto the redo stack and the last move becomes the new top or None. Otherwise nothing changes |
| Game.Redo | stockfish_trainer/gui.py:1379-1387 | Outside automatic mode, the top redo entry is popped, and pushed again only if it is legal now. An empty redo stack or automatic mode changes nothing |
| Game.UndoThenRedo | fishpython.py:838-855 | On a legal game outside automatic mode, undo followed by redo restores the whole state |
| Game.RedoThenUndo | fishpython.py:838-855 | A redo of a move that is legal now, followed by undo, restores the whole state, redo stack included |
| Game.UndoValid | stockfish_trainer/gui.py:1370-1375 | Undo preserves the controller invariant |
| Game.RedoValid | stockfish_trainer/gui.py:1379-1385 | Redo preserves the controller invariant |
| Game.Resign | fishpython.py:1112-1126 | Only an active game whose resignation is confirmed ends, as a loss, with the clock and automatic mode stopped and every other field unchanged; otherwise nothing changes |
| Game.HandleEngineMessage | stockfish_trainer/gui.py:1215-1260 | A move message credits the increment before the legality test and pushes only a legal move. A manual move ends the game when it is over. A legal automatic move schedules the next automatic request unless the game is over or automatic mode is off, in which case the game ends. An illegal automatic move or an error stops automatic mode. Beyond the credit and the push, only the game flag, automatic mode, the running clock and the statistics can change, and only when the game ends; a manual reply keeps automatic mode otherwise. The redo stack is never touched |
| Game.AutoGameEndScoredForPlayer | fishpython.py:703-715 | An automatic game that ends on the board is scored as a win, loss or draw for the player |
| Game.LateAutoReplyEndsGame | stockfish_trainer/gui.py:1235-1247 | A legal automatic reply arriving after automatic mode was stopped ends the game, and an unfinished board then counts as a loss |
| Game.HandleEngineMessageValid | fishpython.py:683-724 | Handling any engine message preserves the controller invariant |
| Game.FreshManualGame | fishpython.py:1085-1102 | A new manual game has both clocks at clamp(minutes, 1, 180) * 60 and the increment at clamp(increment, 0, 60). The board and redo stack are empty and the game is active, manual and timed. The board faces the player's colour and the statistics are kept |
| Game.StartAutoGame | stockfish_trainer/gui.py:1703-1729 | Without an engine nothing changes. Otherwise a fresh timed automatic game starts with White's first second already ticked, the increment equal to clamp(increment, 0, 60), the Elo settings equal to clamp(elo, 800, 3000) for each side, and the first automatic request scheduled |
| Classic.StartNewGame | fishpython.py:1078-1110 | Without an engine nothing changes. Otherwise a fresh manual game starts with clamped settings and White's first second already ticked. The board faces the player, the statistics are kept, and the engine is asked to move exactly when the player has Black, in which case the scheduled search starts |
| Game.MakeMove | fishpython.py:643-664 | The move is pushed with the increment credited to the mover and the redo stack emptied. The game ends, and is scored, exactly when it is over; otherwise the statistics and modes are kept and the engine is asked to reply exactly when it is no longer the player's turn |
| Game.PlayerMoveReplySearchStarts | stockfish_trainer/gui.py:1198-1201 | After a move from the board, the scheduled engine search starts exactly when the game is not over, and a reply is requested only for the side that is not the player's |
| Game.StartAutoGameSearches | stockfish_trainer/gui.py:1742-1746 | The first scheduled search of an automatic game starts, for White, with the clamped White Elo setting |
| Game.AutoReplySearchesForOtherSide | stockfish_trainer/gui.py:1742-1746 | After an automatic reply a search can start exactly when the next automatic request is scheduled, and it uses the Elo setting of the side that did not just move |
| Classic.SubmitMove | fishpython.py:589-619 | A board move changes the state exactly when the game is active and manual, it is the player's turn and the move is legal; then the step is exactly the shared make_move (increment, push, emptied redo stack, end of game or engine request) |
| Classic.NextPreservesValid | fishpython.py:643-728 | Every event keeps the board a legal game with the last move on top, the clocks non-negative, the statistics consistent and automatic mode only in an active game |
| Training.ParsesAsCons | stockfish_trainer/gui.py:854-857 | A line parses from a position exactly when its first entry parses to a move and the rest parses from the position after that move |
| Training.ParseLine | stockfish_trainer/gui.py:851-858 | A successful replay yields one move per entry, each entry parsing to its move in the position reached by the moves before it |
| Training.ParseLineComplete | stockfish_trainer/gui.py:851-858 | Whenever the entries parse in order to some moves, the replay succeeds with exactly those moves |
| Training.ParsedLineLegal | stockfish_trainer/gui.py:855-857 | Every move of a parsed line is legal where it stands, or is the null move |
| Training.InitializeLine | stockfish_trainer/gui.py:844-867 | On success the line is active at index 0 and its moves are the parsed entries. On failure the training state is reset: empty line, index 0, inactive. An empty line never succeeds |
| Training.InitializeLineIff | stockfish_trainer/gui.py:844-867 | Loading succeeds if and only if the line is non-empty and every entry parses, in order, from the initial position |
| Training.InitializeLineLegal | stockfish_trainer/gui.py:851-863 | Every move of a loaded line is legal where it stands in the line from the initial position, or is the null move |
| Trainer.FinishTraining | stockfish_trainer/gui.py:898-917 | An active line becomes inactive, with nothing else changed. The engine is asked to move exactly after a successful line when it is ready, the game is not over, automatic mode is off and it is not the player's turn. An inactive line changes nothing |
| Trainer.AutoPlay | stockfish_trainer/gui.py:876-896 | At most one move is played. It is played only on the opponent's turn, is the line's expected move, is legal, credits the increment to the mover, and raises the index by exactly one. An illegal expected move ends the line with no request. An active line stays active exactly when it did not break, an expected move is left and the game is not over, and then the player is to move. The engine is asked to move exactly when the line ended without breaking, the engine is ready, the game is not over, automatic mode is off and it is not the player's turn |
| Trainer.Commit | stockfish_trainer/gui.py:1165-1196 | The move is pushed with the increment credited to the mover, the redo stack emptied and the index advanced when it came from the line. Outside training the step is exactly the shared make_move. During training the game is neither ended nor scored: a game-ending move is pushed and only ends the line, with no request, and otherwise the line sequencer runs from the new position |
| Trainer.ContinueLine | stockfish_trainer/gui.py:1178-1185 | After a player's move during training, a finished game ends the line with nothing else changed and no request; otherwise the line sequencer runs. The game is never ended or scored here, and the mover's clock is untouched |
| Trainer.MakeMove | stockfish_trainer/gui.py:1145-1196 | During training on the player's turn, a move other than the expected one changes nothing, and an exhausted line is only finished, with the game untouched and no request. The expected move is committed with the index advanced; outside that case the move is committed with the index kept |
| Trainer.SubmitMove | stockfish_trainer/gui.py:1089-1120 | A move that passes the click checks goes to make_move. The board changes exactly when the move passes the click checks and, during training, is the expected move. Then it starts with the move, the mover gets the increment, the redo stack is emptied and the index advances. Outside training the step is exactly the shared make_move. During training nothing is scored, the game stays active, a game-ending move only ends the line, and unless the game is over the line sequencer runs from the new position. A scheduled engine reply always starts its search. Otherwise game and index are unchanged |
| Trainer.StartNewGame | stockfish_trainer/gui.py:1590-1647 | Without an engine and without a requested line nothing changes. Otherwise a fresh manual game starts with clamped clocks and the statistics kept. A line that loads is installed and the line sequencer runs on the fresh game with it. Without a loaded line the game is exactly the fresh game after its first tick (clamped increment, running clock, orientation), the training state is reset and the engine opens exactly when the player has Black |
| Trainer.Resign | stockfish_trainer/gui.py:1649-1660 | A confirmed resignation of an active game resigns it and ends the line; otherwise nothing changes |
| Trainer.EngineReply | stockfish_trainer/gui.py:1666-1671 | An engine message acts on the game as in the shared handler, and ends an active line exactly when it ends the game |
| Trainer.AutoPlayValid | stockfish_trainer/gui.py:879-891 | Auto-play preserves the controller invariant and keeps the index within the line |
| Trainer.SubmitMoveValid | stockfish_trainer/gui.py:1145-1185 | A submitted move preserves the controller invariant and keeps the index within the line |
| Trainer.NextPreservesValid | stockfish_trainer/gui.py:1145-1196 | Every event keeps the board a legal game with the last move on top, the clocks non-negative, the statistics consistent, automatic mode only in an active game, every line move legal where it stands or null, and the index within the line |
| Trainer.GameOverDuringTrainingNotScored | stockfish_trainer/gui.py:1178-1181 | A player's move that ends the game during training only pushes the move, with the increment and the emptied redo stack, and ends the line with its index advanced. The game stays active, nothing is scored and no request is made |
| Trainer.TrainingOffFreesPlay | stockfish_trainer/gui.py:818-842 | Unticking the training switch leaves the game untouched, makes no request and ends the line. From then on a board move is accepted exactly when the click checks pass |
| Trainer.TrainingScenario | stockfish_trainer/gui.py:1145-1185 | With line [a, b, c] loaded for White, a different legal move is refused with nothing changed. Move a is played and answered at once with b, leaving the index at 2 and no engine request |

## Left out

- Chess rules: move generation, notation parsing, check, mate and results come from python-chess. They are the `Rules` oracle.
- The engine process (`stockfish_trainer/engine.py` is not part of this model, nor is `SafeStockfish` in `fishpython.py`). Engine readiness is the `engineReady` field. `choose_stockfish`, which changes it, is not modelled.
- Threads, `queue.Queue`, the `after` delays and cancellation of scheduled jobs are not modelled. One queue message is handled at a time, and a scheduled callback is the `Request` a step returns. So a second tick chain, left running when a new game starts while the clock runs, is out of scope.
- Tk presentation: widgets, themes, board images, hint arrows, `disable_inputs`, message boxes and the status texts of the training panel.
- The square-selection part of `on_canvas_click` (which piece is on a square, the queen auto-promotion) is not modelled. Only its final checks before `make_move` are modelled, as `MayPlay`.
- Evaluation display and hints (`update_eval_label`, `analyze_position`, `get_eval_cp`, `show_hint`) are engine calls with float formatting.
- Persistence: loading and saving the statistics JSON, and PGN import, export and copy. The loaded statistics are a parameter of `Game.Initial`.
- The training-mode checkbox is a UI setting. It is a field of each new-game configuration, and unticking it is the `TrainingOff` event. Its reset to off after a line fails to load is not modelled.
- Entry points (`stockfish_trainer/app.py`, `main`) only create the window.

=== FILE: chess.dfy ===
/**
 * The chess vocabulary the controller relies on. Move generation, notation
 * parsing and game-end detection are not modelled: they form the `Rules`
 * oracle, a record of total functions over the sequence of moves played
 * from the initial position.
 */
module Chess {
  import opened Wrappers

  datatype Color = White | Black

  function Other(c: Color): Color {
    match c
    case White => Black
    case Black => White
  }

  /** A square index 0..63, file-major within each rank (a1 = 0, h8 = 63). */
  type Square = s: int | 0 <= s < 64

  datatype PieceKind = Knight | Bishop | Rook | Queen

  /** A move compares structurally, as the controller's `!=` against the training line does. */
  datatype Move = Move(from: Square, to: Square, promotion: Option<PieceKind>)

  /**
   * The null move a1a1 that python-chess's `parse_san` returns for the
   * notations "--", "Z0", "0000" and "@@@@". Pushing it only hands the turn over.
   */
  const NullMove := Move(0, 0, None)

  /** The value of `board.result()`: "1-0", "0-1", "1/2-1/2" or "*". */
  datatype GameResult = WhiteWins | BlackWins | DrawResult | Unfinished

  /** A position is identified with the moves played from the initial position. */
  type Board = seq<Move>

  datatype Rules = Rules(
    legal: (Board, Move) -> bool,
    gameOver: Board -> bool,
    result: Board -> GameResult,
    parseSan: (Board, string) -> Option<Move>)

  /** Side to move: the game starts with White and every push hands the turn over. */
  function Turn(b: Board): Color {
    if |b| % 2 == 0 then White else Black
  }

  /** The top of the move stack, or None for the initial position. */
  function Top(b: Board): Option<Move> {
    if |b| == 0 then None else Some(b[|b| - 1])
  }

  /** Every move of `b` was legal in the position it was played from. */
  ghost predicate LegalGame(rules: Rules, b: Board) {
    forall i :: 0 <= i < |b| ==> rules.legal(b[..i], b[i])
  }

  /** Every move of `b` was legal in the position it was played from, or is the null move. */
  ghost predicate LegalOrNullGame(rules: Rules, b: Board) {
    forall i :: 0 <= i < |b| ==> rules.legal(b[..i], b[i]) || b[i] == NullMove
  }

  /** Notation parsing yields either a move that is legal where it is parsed or the null move, as `parse_san` documents. */
  ghost predicate SanSound(rules: Rules) {
    forall b: Board, san: string :: rules.parseSan(b, san).Some? ==>
      rules.legal(b, rules.parseSan(b, san).value) || rules.parseSan(b, san).value == NullMove
  }

  /** Every push hands the turn to the other side. */
  lemma TurnAlternates(b: Board, m: Move)
    ensures Turn(b + [m]) == Other(Turn(b))
  {
  }

  /** A pushed move is the new top of the stack, and popping it restores the old top. */
  lemma TopOfPush(b: Board, m: Move)
    ensures Top(b + [m]) == Some(m)
    ensures (b + [m])[..|b|] == b && Top((b + [m])[..|b|]) == Top(b)
  {
    assert (b + [m])[..|b|] == b;
  }

  /** Pushing a move that is legal where it is played keeps the game legal. */
  lemma {:induction false} LegalGamePush(rules: Rules, b: Board, m: Move)
    requires LegalGame(rules, b)
    requires rules.legal(b, m)
    ensures LegalGame(rules, b + [m])
  {
    var b' := b + [m];
    forall i | 0 <= i < |b'|
      ensures rules.legal(b'[..i], b'[i])
    {
      if i < |b| {
        assert b'[..i] == b[..i];
      } else {
        assert b'[..i] == b;
      }
    }
  }

  /** Popping moves off a legal game leaves a legal game. */
  lemma {:induction false} LegalGamePrefix(rules: Rules, b: Board, k: nat)
    requires LegalGame(rules, b)
    requires k <= |b|
    ensures LegalGame(rules, b[..k])
  {
    var p := b[..k];
    forall i | 0 <= i < |p|
      ensures rules.legal(p[..i], p[i])
    {
      assert p[..i] == b[..i];
    }
  }
}

=== FILE: classic.dfy ===
/**
 * The single-file controller without opening training: a manual game
 * against the engine, automatic engine-against-engine games, and the
 * shared clock, undo/redo and statistics.
 */
module Classic {
  import opened Wrappers
  import opened Utils
  import opened Chess
  import opened Game

  /** Settings read when a manual game starts. */
  datatype GameConfig = GameConfig(minutes: int, increment: int, color: Color, difficulty: int)

  /** The events the controller reacts to on its single thread. */
  datatype Event =
    | NewGame(cfg: GameConfig)
    | NewAutoGame(auto: AutoConfig)
    | StopAuto
    | HumanMove(mv: Move)
    | EngineReply(msg: EngineMessage)
    | ClockTick
    | UndoRequest
    | RedoRequest
    | ResignRequest(confirmed: bool)

  /**
   * `start_new_game`: refused without an engine; otherwise a fresh board
   * with clamped settings, the board turned towards the player, the clock
   * started (which at once takes a second from White) and, for a player
   * with Black, the engine asked to open.
   */
  function StartNewGame(g: State, cfg: GameConfig, now: string): (r: Step)
    ensures !g.engineReady ==> r == Step(g, NoRequest, false)
    ensures g.engineReady ==>
      var secs := Clamp(cfg.minutes, 1, 180) * 60;
      && !r.ended
      && r.state.board == [] && r.state.redo == [] && r.state.lastMove == None
      && r.state.gameActive && !r.state.autoMode && r.state.clock.running
      && r.state.clock.white == secs - 1 && r.state.clock.black == secs
      && r.state.clock.increment == Clamp(cfg.increment, 0, 60)
      && r.state.player == cfg.color && r.state.flip == (cfg.color == Black)
      && r.state.stats == g.stats
      && (r.request == ManualMoveRequest <==> cfg.color == Black)
      && (r.request == NoRequest <==> cfg.color == White)
      && (r.request == ManualMoveRequest ==> ManualSearchStarts(r.state))
  {
    if !g.engineReady then Step(g, NoRequest, false)
    else
      var g1 := FreshManualGame(g, cfg.minutes, cfg.increment, cfg.color, cfg.difficulty);
      Step(Tick(g1, now), if cfg.color == Black then ManualMoveRequest else NoRequest, false)
  }

  /**
   * A move entered on the board: it is played exactly when the game is
   * active and manual, it is the player's turn and the move is legal;
   * otherwise nothing changes.
   */
  function SubmitMove(g: State, rules: Rules, mv: Move, now: string): (r: Step)
    ensures !MayPlay(g, rules, mv) ==> r == Step(g, NoRequest, false)
    ensures MayPlay(g, rules, mv) ==> r == MakeMove(g, rules, mv, now)
    ensures MayPlay(g, rules, mv) ==> r.state.board == g.board + [mv] && r.state.redo == []
    ensures r.state != g <==> MayPlay(g, rules, mv)
  {
    if MayPlay(g, rules, mv) then MakeMove(g, rules, mv, now) else Step(g, NoRequest, false)
  }

  /** The controller's reaction to one event. */
  function Next(g: State, rules: Rules, ev: Event, now: string): Step {
    match ev
    case NewGame(cfg) => StartNewGame(g, cfg, now)
    case NewAutoGame(auto) => StartAutoGame(g, auto, now)
    case StopAuto => Step(StopAutoGame(g), NoRequest, false)
    case HumanMove(mv) => SubmitMove(g, rules, mv, now)
    case EngineReply(msg) => HandleEngineMessage(g, rules, msg, now)
    case ClockTick => Step(Tick(g, now), NoRequest, false)
    case UndoRequest => Step(Undo(g), NoRequest, false)
    case RedoRequest => Step(Redo(g, rules), NoRequest, false)
    case ResignRequest(confirmed) => Step(Resign(g, confirmed, now), NoRequest, false)
  }

  /**
   * Every event keeps the board a legal game, the last move on top of it,
   * the clocks non-negative and the statistics consistent.
   */
  lemma {:induction false} NextPreservesValid(g: State, rules: Rules, ev: Event, now: string)
    requires Valid(rules, g)
    ensures Valid(rules, Next(g, rules, ev, now).state)
  {
    match ev
    case HumanMove(mv) =>
      if MayPlay(g, rules, mv) {
        PlayMoveValid(rules, g, mv);
      }
    case EngineReply(msg) =>
      HandleEngineMessageValid(g, rules, msg, now);
    case UndoRequest =>
      UndoValid(rules, g);
    case RedoRequest =>
      RedoValid(rules, g);
    case _ =>
  }
}

=== FILE: clock.dfy ===
/** The two-sided countdown clock: remaining seconds per side and the Fischer increment. */
module Clock {
  import opened Chess

  datatype Clock = Clock(white: int, black: int, increment: int, running: bool)

  function Remaining(c: Clock, side: Color): int {
    match side
    case White => c.white
    case Black => c.black
  }

  /** Neither side's time is negative and the increment never takes time away. */
  predicate Sane(c: Clock) {
    c.white >= 0 && c.black >= 0 && c.increment >= 0
  }

  /**
   * The increment credited before a move is pushed: only when it is positive,
   * and only to `mover`, the side whose turn it is before the push.
   */
  function CreditIncrement(c: Clock, mover: Color): (r: Clock)
    ensures Remaining(r, Other(mover)) == Remaining(c, Other(mover))
    ensures c.increment > 0 ==> Remaining(r, mover) == Remaining(c, mover) + c.increment
    ensures c.increment <= 0 ==> r == c
    ensures r.increment == c.increment && r.running == c.running
    ensures Sane(c) ==> Sane(r)
  {
    if c.increment <= 0 then c
    else
      match mover
      case White => c.(white := c.white + c.increment)
      case Black => c.(black := c.black + c.increment)
  }

  /** One second off `side`, floored at 0. */
  function Countdown(c: Clock, side: Color): (r: Clock)
    ensures Remaining(r, Other(side)) == Remaining(c, Other(side))
    ensures Remaining(r, side) >= 0
    ensures Remaining(r, side) <= Remaining(c, side) || Remaining(c, side) < 0
    ensures Remaining(c, side) >= 1 ==> Remaining(r, side) == Remaining(c, side) - 1
    ensures Remaining(c, side) <= 1 ==> Remaining(r, side) == 0
    ensures r.increment == c.increment && r.running == c.running
    ensures Sane(c) ==> Sane(r)
  {
    match side
    case White => c.(white := if c.white - 1 > 0 then c.white - 1 else 0)
    case Black => c.(black := if c.black - 1 > 0 then c.black - 1 else 0)
  }
}

=== FILE: game.dfy ===
/**
 * Controller state and the operations that the two versions of the GUI share
 * line for line: the clock tick and flag, undo/redo, the engine-queue handler,
 * automatic games, end of game and resignation.
 */
module Game {
  import opened Wrappers
  import opened Utils
  import opened Chess
  import opened Clock
  import opened Stats

  /** A callback scheduled with `after`: a request to the engine for the side to move. */
  datatype Request = NoRequest | ManualMoveRequest | AutoMoveRequest

  /** A message posted by an engine worker thread on the queue. */
  datatype EngineMessage =
    | EngineMoveManual(mv: Move)
    | EngineMoveAuto(mv: Move)
    | EngineError(text: string)

  /** Settings read when an automatic game starts. */
  datatype AutoConfig = AutoConfig(minutes: int, increment: int, whiteElo: int, blackElo: int)

  datatype State = State(
    board: Board,
    redo: seq<Move>,
    lastMove: Option<Move>,
    clock: Clock,
    player: Color,
    gameActive: bool,
    autoMode: bool,
    engineReady: bool,
    flip: bool,
    difficulty: int,
    whiteElo: int,
    blackElo: int,
    stats: Stats)

  /** The state after one event: the new state, the engine request it schedules, and whether `end_game` ran. */
  datatype Step = Step(state: State, request: Request, ended: bool)

  /** The state built by the constructor, with the loaded statistics. */
  function Initial(engineReady: bool, stats: Stats): (g: State)
    ensures g.board == [] && g.redo == [] && g.lastMove == None
    ensures !g.gameActive && !g.autoMode && !g.clock.running
    ensures Sane(g.clock)
    ensures g.clock == Clock(300, 300, 0, false) && g.player == White
    ensures g.stats == stats && g.engineReady == engineReady
  {
    State([], [], None, Clock(5 * 60, 5 * 60, 0, false), White, false, false, engineReady, false, 1500, 1500, 1500, stats)
  }

  /** What every operation preserves. */
  ghost predicate Valid(rules: Rules, g: State) {
    && LegalGame(rules, g.board)
    && g.lastMove == Top(g.board)
    && Sane(g.clock)
    && StreakSane(g.stats)
    && Decided(g.stats) <= g.stats.games
    && (g.autoMode ==> g.gameActive)
  }

  lemma InitialValid(rules: Rules, engineReady: bool, stats: Stats)
    requires StreakSane(stats) && Decided(stats) <= stats.games
    ensures Valid(rules, Initial(engineReady, stats))
  {
  }

  /** `stop_auto_game`: leaves automatic mode and changes nothing else. */
  function StopAutoGame(g: State): (r: State)
    ensures !r.autoMode && r.(autoMode := g.autoMode) == g
  {
    g.(autoMode := false)
  }

  /**
   * Credits the increment to the side to move and pushes `mv`, as the
   * engine replies, training auto-play and `make_move` all do.
   */
  function PlayMove(g: State, mv: Move): (r: State)
    ensures r.board == g.board + [mv] && r.lastMove == Some(mv)
    ensures r.clock == CreditIncrement(g.clock, Turn(g.board))
    ensures r.redo == g.redo && r.stats == g.stats && r.gameActive == g.gameActive && r.autoMode == g.autoMode
    ensures r.player == g.player && r.engineReady == g.engineReady
  {
    g.(clock := CreditIncrement(g.clock, Turn(g.board)), board := g.board + [mv], lastMove := Some(mv))
  }

  lemma {:induction false} PlayMoveValid(rules: Rules, g: State, mv: Move)
    requires Valid(rules, g)
    requires rules.legal(g.board, mv)
    ensures Valid(rules, PlayMove(g, mv))
  {
    LegalGamePush(rules, g.board, mv);
  }

  /**
   * `end_game`: the game stops, the clock stops, automatic mode ends and
   * the statistics are updated from the board result, treating the game as
   * automatic exactly when automatic mode was still on when it was called.
   */
  function EndGame(g: State, rules: Rules, now: string): (r: State)
    ensures !r.gameActive && !r.clock.running && !r.autoMode
    ensures r.board == g.board && r.redo == g.redo && r.lastMove == g.lastMove && r.player == g.player
    ensures r.clock.white == g.clock.white && r.clock.black == g.clock.black && r.clock.increment == g.clock.increment
    ensures r.stats == RecordEndGame(g.stats, rules.result(g.board), g.autoMode, g.player, now)
    ensures r.(gameActive := g.gameActive, autoMode := g.autoMode, clock := g.clock, stats := g.stats) == g
  {
    var wasAuto := g.autoMode;
    g.(gameActive := false, clock := g.clock.(running := false), autoMode := false,
       stats := RecordEndGame(g.stats, rules.result(g.board), wasAuto, g.player, now))
  }

  /**
   * `flag_time`: the flagged side has run out of time. Automatic mode is
   * switched off before the statistics test it, so the game is always scored
   * for the player.
   */
  function FlagTime(g: State, flagged: Color, now: string): (r: State)
    ensures !r.gameActive && !r.clock.running && !r.autoMode
    ensures r.board == g.board && r.redo == g.redo && r.lastMove == g.lastMove && r.player == g.player
    ensures r.clock.white == g.clock.white && r.clock.black == g.clock.black && r.clock.increment == g.clock.increment
    ensures r.stats == RecordFlag(g.stats, flagged, g.player, now)
    ensures r.(gameActive := g.gameActive, autoMode := g.autoMode, clock := g.clock, stats := g.stats) == g
  {
    var g1 := StopAutoGame(g.(gameActive := false));
    var g2 := g1.(clock := g1.clock.(running := false));
    // The automatic-game branch of the source tests `auto_mode` after it was cleared, so it never runs.
    g2.(stats := RecordFlag(g2.stats, flagged, g2.player, now))
  }

  /**
   * `tick_clock`: one second of wall time. Nothing happens unless the clock
   * runs and the game is active; otherwise only the side to move loses a
   * second, floored at 0, and reaching 0 flags that side.
   */
  function Tick(g: State, now: string): (r: State)
    ensures !g.clock.running || !g.gameActive ==> r == g
    ensures g.clock.running && g.gameActive ==>
      var side := Turn(g.board);
      && Remaining(r.clock, Other(side)) == Remaining(g.clock, Other(side))
      && Remaining(r.clock, side) == Max(0, Remaining(g.clock, side) - 1)
      && (r.gameActive <==> Remaining(r.clock, side) > 0)
      && (r.gameActive ==> r == g.(clock := r.clock) && r.clock.running)
      && (!r.gameActive ==> !r.clock.running && !r.autoMode && r.stats == RecordFlag(g.stats, side, g.player, now))
      && r.(gameActive := g.gameActive, autoMode := g.autoMode, clock := g.clock, stats := g.stats) == g
    ensures r.board == g.board && r.redo == g.redo && r.lastMove == g.lastMove
    ensures r.clock.increment == g.clock.increment
    ensures Sane(g.clock) ==> Sane(r.clock)
  {
    if !g.clock.running || !g.gameActive then g
    else
      var side := Turn(g.board);
      var g1 := g.(clock := Countdown(g.clock, side));
      if Remaining(g1.clock, side) == 0 then FlagTime(g1, side, now) else g1
  }

  /**
   * A flag in an automatic game is still scored for the player, because
   * `flag_time` leaves automatic mode before it tests it.
   */
  lemma AutoGameFlagScoredForPlayer(g: State, now: string)
    requires g.clock.running && g.gameActive && g.autoMode
    requires Remaining(g.clock, Turn(g.board)) <= 1
    ensures var r := Tick(g, now);
      !r.gameActive && !r.autoMode && Decided(r.stats) == Decided(g.stats) + 1
      && (Turn(g.board) == g.player <==> r.stats.losses == g.stats.losses + 1)
  {
  }

  /**
   * `undo_move`: moves the top of the move stack onto the redo stack; a
   * no-op on an empty move stack or in automatic mode.
   */
  function Undo(g: State): (r: State)
    ensures |g.board| == 0 || g.autoMode ==> r == g
    ensures |g.board| > 0 && !g.autoMode ==>
      && g.board == r.board + [g.board[|g.board| - 1]]
      && r.redo == g.redo + [g.board[|g.board| - 1]]
      && r.lastMove == Top(r.board)
      && r == g.(board := r.board, redo := r.redo, lastMove := r.lastMove)
  {
    if |g.board| == 0 || g.autoMode then g
    else
      var n := |g.board|;
      var rest := g.board[..n - 1];
      g.(board := rest, redo := g.redo + [g.board[n - 1]], lastMove := Top(rest))
  }

  /**
   * `redo_move`: pops the redo stack and pushes that move again only if it
   * is legal now; a no-op on an empty redo stack or in automatic mode.
   */
  function Redo(g: State, rules: Rules): (r: State)
    ensures |g.redo| == 0 || g.autoMode ==> r == g
    ensures |g.redo| > 0 && !g.autoMode ==>
      var mv := g.redo[|g.redo| - 1];
      && g.redo == r.redo + [mv]
      && (rules.legal(g.board, mv) ==> r == g.(board := g.board + [mv], redo := r.redo, lastMove := Some(mv)))
      && (!rules.legal(g.board, mv) ==> r == g.(redo := r.redo))
  {
    if |g.redo| == 0 || g.autoMode then g
    else
      var n := |g.redo|;
      var mv := g.redo[n - 1];
      var g1 := g.(redo := g.redo[..n - 1]);
      if rules.legal(g1.board, mv) then g1.(board := g1.board + [mv], lastMove := Some(mv)) else g1
  }

  /** Undo followed by redo restores the whole state. */
  lemma UndoThenRedo(rules: Rules, g: State)
    requires Valid(rules, g)
    requires |g.board| > 0 && !g.autoMode
    ensures Redo(Undo(g), rules) == g
  {
    var n := |g.board|;
    assert rules.legal(g.board[..n - 1], g.board[n - 1]);
    assert g.board[..n - 1] + [g.board[n - 1]] == g.board;
  }

  /** Redo of a move that is legal now, followed by undo, restores the whole state. */
  lemma RedoThenUndo(rules: Rules, g: State)
    requires g.lastMove == Top(g.board)
    requires |g.redo| > 0 && !g.autoMode
    requires rules.legal(g.board, g.redo[|g.redo| - 1])
    ensures Undo(Redo(g, rules)) == g
  {
    var n := |g.redo|;
    assert g.redo[..n - 1] + [g.redo[n - 1]] == g.redo;
  }

  lemma {:induction false} UndoValid(rules: Rules, g: State)
    requires Valid(rules, g)
    ensures Valid(rules, Undo(g))
  {
    if |g.board| > 0 && !g.autoMode {
      LegalGamePrefix(rules, g.board, |g.board| - 1);
    }
  }

  lemma {:induction false} RedoValid(rules: Rules, g: State)
    requires Valid(rules, g)
    ensures Valid(rules, Redo(g, rules))
  {
    if |g.redo| > 0 && !g.autoMode && rules.legal(g.board, g.redo[|g.redo| - 1]) {
      LegalGamePush(rules, g.board, g.redo[|g.redo| - 1]);
    }
  }

  /**
   * `resign_game`: only an active game whose resignation was confirmed ends,
   * as a loss for the player.
   */
  function Resign(g: State, confirmed: bool, now: string): (r: State)
    ensures !(g.gameActive && confirmed) ==> r == g
    ensures g.gameActive && confirmed ==>
      && !r.gameActive && !r.clock.running && !r.autoMode
      && r.stats == RecordResign(g.stats, now)
      && r.board == g.board && r.redo == g.redo && r.lastMove == g.lastMove
      && r.clock.white == g.clock.white && r.clock.black == g.clock.black && r.clock.increment == g.clock.increment
      && r.(gameActive := g.gameActive, autoMode := g.autoMode, clock := g.clock, stats := g.stats) == g
  {
    if g.gameActive && confirmed then
      var g1 := StopAutoGame(g.(gameActive := false, clock := g.clock.(running := false)));
      g1.(stats := RecordResign(g1.stats, now))
    else g
  }

  /**
   * `stockfish_move_once_for_manual`: the scheduled callback only starts an
   * engine search when the engine is ready, the game is active and automatic
   * mode is off.
   */
  predicate ManualSearchStarts(g: State) {
    g.engineReady && g.gameActive && !g.autoMode
  }

  /**
   * `stockfish_move_once_for_auto`: the Elo the engine searches with, if the
   * scheduled callback starts a search at all; it uses the setting of the
   * side to move.
   */
  function AutoSearchElo(g: State): Option<int> {
    if !g.engineReady || !g.gameActive || !g.autoMode then None
    else Some(if Turn(g.board) == White then g.whiteElo else g.blackElo)
  }

  /**
   * One message taken off the engine queue by `process_engine_queue`. Both
   * move messages credit the increment to the side to move before the
   * legality test, so it is credited even when the move is rejected.
   */
  function HandleEngineMessage(g: State, rules: Rules, msg: EngineMessage, now: string): (r: Step)
    ensures r.state.redo == g.redo && r.state.player == g.player
    ensures msg.EngineError? ==> r == Step(StopAutoGame(g), NoRequest, false)
    ensures !msg.EngineError? ==>
      var credited := CreditIncrement(g.clock, Turn(g.board));
      && r.state.clock.white == credited.white && r.state.clock.black == credited.black
      && r.state.clock.increment == g.clock.increment
      && (rules.legal(g.board, msg.mv) ==> r.state.board == g.board + [msg.mv] && r.state.lastMove == Some(msg.mv))
      && (!rules.legal(g.board, msg.mv) ==> r.state.board == g.board && r.state.lastMove == g.lastMove && !r.ended)
    ensures r.request == AutoMoveRequest <==>
      msg.EngineMoveAuto? && rules.legal(g.board, msg.mv) && g.autoMode && !rules.gameOver(g.board + [msg.mv])
    ensures r.request != ManualMoveRequest
    ensures r.ended <==>
      !msg.EngineError? && rules.legal(g.board, msg.mv)
      && (rules.gameOver(g.board + [msg.mv]) || (msg.EngineMoveAuto? && !g.autoMode))
    ensures r.ended ==>
      && !r.state.gameActive && !r.state.autoMode && !r.state.clock.running
      && r.state.stats == RecordEndGame(g.stats, rules.result(g.board + [msg.mv]), msg.EngineMoveManual? && g.autoMode, g.player, now)
    ensures !r.ended ==> r.state.stats == g.stats && r.state.gameActive == g.gameActive
    ensures msg.EngineMoveAuto? && !r.ended ==> r.state.autoMode == (r.request == AutoMoveRequest)
    ensures !msg.EngineError? && !r.ended ==>
      r.state.(autoMode := g.autoMode)
        == (if rules.legal(g.board, msg.mv) then PlayMove(g, msg.mv) else g.(clock := CreditIncrement(g.clock, Turn(g.board))))
    ensures r.ended ==>
      && r.state.board == g.board + [msg.mv] && r.state.lastMove == Some(msg.mv)
      && r.state.engineReady == g.engineReady && r.state.flip == g.flip && r.state.difficulty == g.difficulty
      && r.state.whiteElo == g.whiteElo && r.state.blackElo == g.blackElo
    ensures msg.EngineMoveManual? ==> r.state.engineReady == g.engineReady && (!r.ended ==> r.state.autoMode == g.autoMode)
  {
    match msg
    case EngineMoveManual(mv) =>
      if rules.legal(g.board, mv) then
        var g1 := PlayMove(g, mv);
        if rules.gameOver(g1.board) then Step(EndGame(g1, rules, now), NoRequest, true)
        else Step(g1, NoRequest, false)
      else Step(g.(clock := CreditIncrement(g.clock, Turn(g.board))), NoRequest, false)
    case EngineMoveAuto(mv) =>
      if rules.legal(g.board, mv) then
        var g1 := PlayMove(g, mv);
        if rules.gameOver(g1.board) || !g1.autoMode then Step(EndGame(StopAutoGame(g1), rules, now), NoRequest, true)
        else Step(g1, AutoMoveRequest, false)
      else Step(StopAutoGame(g.(clock := CreditIncrement(g.clock, Turn(g.board)))), NoRequest, false)
    case EngineError(_) =>
      Step(StopAutoGame(g), NoRequest, false)
  }

  /**
   * An automatic game that ends on the board is scored for the player like
   * a manual game: the handler leaves automatic mode before `end_game` reads it.
   */
  lemma AutoGameEndScoredForPlayer(g: State, rules: Rules, mv: Move, now: string)
    requires rules.legal(g.board, mv) && rules.gameOver(g.board + [mv])
    ensures HandleEngineMessage(g, rules, EngineMoveAuto(mv), now).state.stats
         == RecordVerdict(g.stats, Classify(rules.result(g.board + [mv]), g.player), now)
  {
  }

  /**
   * A legal automatic reply that arrives after automatic mode was stopped
   * still ends the game, and an unfinished board then counts as a loss.
   */
  lemma LateAutoReplyEndsGame(g: State, rules: Rules, mv: Move, now: string)
    requires !g.autoMode && rules.legal(g.board, mv)
    requires !rules.gameOver(g.board + [mv]) && rules.result(g.board + [mv]) == Unfinished
    ensures var r := HandleEngineMessage(g, rules, EngineMoveAuto(mv), now);
      r.ended && !r.state.gameActive && r.state.stats.losses == g.stats.losses + 1
  {
  }

  lemma {:induction false} HandleEngineMessageValid(g: State, rules: Rules, msg: EngineMessage, now: string)
    requires Valid(rules, g)
    ensures Valid(rules, HandleEngineMessage(g, rules, msg, now).state)
  {
    if !msg.EngineError? && rules.legal(g.board, msg.mv) {
      PlayMoveValid(rules, g, msg.mv);
    }
  }

  /**
   * `make_move` outside opening training, the same in both versions: credits
   * the increment to the mover, pushes the move and empties the redo stack;
   * then ends the game if it is over, or asks the engine to reply when it is
   * no longer the player's turn.
   */
  function MakeMove(g: State, rules: Rules, mv: Move, now: string): (r: Step)
    ensures r.state.board == g.board + [mv] && r.state.lastMove == Some(mv) && r.state.redo == []
    ensures r.state.clock.white == CreditIncrement(g.clock, Turn(g.board)).white
    ensures r.state.clock.black == CreditIncrement(g.clock, Turn(g.board)).black
    ensures r.state.clock.increment == g.clock.increment
    ensures r.state.player == g.player && r.state.engineReady == g.engineReady
    ensures r.ended <==> rules.gameOver(g.board + [mv])
    ensures r.ended ==>
      && !r.state.gameActive && !r.state.autoMode && !r.state.clock.running
      && r.state.stats == RecordEndGame(g.stats, rules.result(g.board + [mv]), g.autoMode, g.player, now)
    ensures !r.ended ==>
      && r.state.stats == g.stats && r.state.gameActive == g.gameActive
      && r.state.autoMode == g.autoMode && r.state.clock.running == g.clock.running
    ensures r.request == ManualMoveRequest <==> !rules.gameOver(g.board + [mv]) && Turn(g.board + [mv]) != g.player
    ensures r.request != AutoMoveRequest
  {
    var g1 := PlayMove(g, mv).(redo := []);
    if rules.gameOver(g1.board) then Step(EndGame(g1, rules, now), NoRequest, true)
    else if Turn(g1.board) != g1.player then Step(g1, ManualMoveRequest, false)
    else Step(g1, NoRequest, false)
  }

  /**
   * After a move played from the board, the engine search scheduled for the
   * reply starts exactly when the game is not over; a reply is requested
   * only then, and for the side that is not the player's.
   */
  lemma PlayerMoveReplySearchStarts(g: State, rules: Rules, mv: Move, now: string)
    requires MayPlay(g, rules, mv) && g.engineReady
    ensures var r := MakeMove(g, rules, mv, now);
      && (ManualSearchStarts(r.state) <==> !rules.gameOver(g.board + [mv]))
      && (r.request == ManualMoveRequest ==> ManualSearchStarts(r.state) && Turn(r.state.board) != r.state.player)
  {
  }

  /** The first search of an automatic game starts, for White, with White's clamped Elo setting. */
  lemma StartAutoGameSearches(g: State, cfg: AutoConfig, now: string)
    requires g.engineReady
    ensures var r := StartAutoGame(g, cfg, now);
      r.request == AutoMoveRequest && AutoSearchElo(r.state) == Some(Clamp(cfg.whiteElo, 800, 3000))
  {
  }

  /**
   * After an automatic reply, a search can start exactly when the next one
   * is requested, and it plays with the Elo of the side that did not just move.
   */
  lemma AutoReplySearchesForOtherSide(g: State, rules: Rules, mv: Move, now: string)
    requires g.engineReady && (g.autoMode ==> g.gameActive)
    ensures var r := HandleEngineMessage(g, rules, EngineMoveAuto(mv), now);
      && (AutoSearchElo(r.state).Some? <==> r.request == AutoMoveRequest)
      && (r.request == AutoMoveRequest ==>
            AutoSearchElo(r.state) == Some(if Turn(g.board) == White then g.blackElo else g.whiteElo))
  {
  }

  /**
   * The common part of `start_new_game` in both versions: clamped time and
   * increment, an empty board and redo stack, an active manual game, the
   * player's colour and the board turned towards that colour, with the
   * clock marked running.
   */
  function FreshManualGame(g: State, minutes: int, increment: int, color: Color, difficulty: int): (r: State)
    ensures r.board == [] && r.redo == [] && r.lastMove == None
    ensures r.gameActive && !r.autoMode && r.clock.running
    ensures r.clock.white == Clamp(minutes, 1, 180) * 60 && r.clock.black == r.clock.white
    ensures 60 <= r.clock.white <= 180 * 60
    ensures r.clock.increment == Clamp(increment, 0, 60) && 0 <= r.clock.increment <= 60
    ensures r.player == color && r.flip == (color == Black)
    ensures r.stats == g.stats && r.engineReady == g.engineReady
  {
    var secs := Clamp(minutes, 1, 180) * 60;
    g.(clock := Clock(secs, secs, Clamp(increment, 0, 60), true),
       board := [], gameActive := true, autoMode := false, player := color,
       difficulty := difficulty, lastMove := None, redo := [], flip := color == Black)
  }

  /** The checks a board click makes before it hands a move to `make_move`. */
  predicate MayPlay(g: State, rules: Rules, mv: Move) {
    g.gameActive && !g.autoMode && Turn(g.board) == g.player && rules.legal(g.board, mv)
  }

  /**
   * `start_auto_game`: refused without an engine; otherwise a fresh board
   * with clamped time, increment and Elo settings, the clock started (which
   * at once takes a second from White) and the first engine request scheduled.
   */
  function StartAutoGame(g: State, cfg: AutoConfig, now: string): (r: Step)
    ensures !g.engineReady ==> r == Step(g, NoRequest, false)
    ensures g.engineReady ==>
      var secs := Clamp(cfg.minutes, 1, 180) * 60;
      && r.request == AutoMoveRequest && !r.ended
      && r.state.board == [] && r.state.redo == [] && r.state.lastMove == None
      && r.state.gameActive && r.state.autoMode && r.state.clock.running
      && r.state.clock.white == secs - 1 && r.state.clock.black == secs
      && r.state.clock.increment == Clamp(cfg.increment, 0, 60) && 0 <= r.state.clock.increment <= 60
      && r.state.whiteElo == Clamp(cfg.whiteElo, 800, 3000) && 800 <= r.state.whiteElo <= 3000
      && r.state.blackElo == Clamp(cfg.blackElo, 800, 3000) && 800 <= r.state.blackElo <= 3000
      && r.state.stats == g.stats && r.state.player == g.player
  {
    if !g.engineReady then Step(g, NoRequest, false)
    else
      var secs := Clamp(cfg.minutes, 1, 180) * 60;
      var g1 := g.(
        clock := Clock(secs, secs, Clamp(cfg.increment, 0, 60), true),
        board := [], gameActive := true, autoMode := true, lastMove := None, redo := [],
        whiteElo := Clamp(cfg.whiteElo, 800, 3000), blackElo := Clamp(cfg.blackElo, 800, 3000));
      Step(Tick(g1, now), AutoMoveRequest, false)
  }
}

=== FILE: geometry.dfy ===
/**
 * Mapping between board squares and canvas pixels. The board image is
 * BOARD_SIZE pixels wide, drawn PADDING pixels from the canvas edge, and
 * split into eight cells per side; with `flip` set the board is shown from
 * Black's side.
 */
module Geometry {
  import opened Wrappers
  import opened Chess

  const BoardSize: int := 640
  const Padding: int := 40
  /** `BOARD_SIZE // 8`, the side of one cell. */
  const CellSize: int := 80

  function FileOf(sq: Square): int { sq % 8 }

  function RankOf(sq: Square): int { sq / 8 }

  /** `chess.square(file, rank)`. */
  function SquareAt(file: int, rank: int): (sq: Square)
    requires 0 <= file < 8 && 0 <= rank < 8
    ensures FileOf(sq) == file && RankOf(sq) == rank
  {
    rank * 8 + file
  }

  /** A pixel coordinate inside the board image along one axis. */
  predicate OnBoard(p: int) {
    Padding <= p < Padding + BoardSize
  }

  /** The pixel (x, y) lies in the cell whose top-left corner is `corner`. */
  predicate InCell(x: int, y: int, corner: (int, int)) {
    corner.0 <= x < corner.0 + CellSize && corner.1 <= y < corner.1 + CellSize
  }

  /** Top-left pixel of the cell that shows `sq`. */
  function SquareToCoords(sq: Square, flip: bool): (xy: (int, int))
    ensures OnBoard(xy.0) && OnBoard(xy.1)
    ensures OnBoard(xy.0 + CellSize - 1) && OnBoard(xy.1 + CellSize - 1)
    ensures (xy.0 - Padding) % CellSize == 0 && (xy.1 - Padding) % CellSize == 0
  {
    var file := if flip then 7 - FileOf(sq) else FileOf(sq);
    var rank := if flip then 7 - RankOf(sq) else RankOf(sq);
    (Padding + file * CellSize, Padding + (7 - rank) * CellSize)
  }

  /** The square under pixel (x, y), or None off the board. */
  function CoordsToSquare(x: int, y: int, flip: bool): (r: Option<Square>)
    ensures r.Some? <==> OnBoard(x) && OnBoard(y)
    ensures r.Some? ==> InCell(x, y, SquareToCoords(r.value, flip))
  {
    if !(OnBoard(x) && OnBoard(y)) then None
    else
      var file := (x - Padding) / CellSize;
      var rankFromTop := (y - Padding) / CellSize;
      var rank := 7 - rankFromTop;
      if flip then Some(SquareAt(7 - file, 7 - rank)) else Some(SquareAt(file, rank))
  }

  /** Every pixel of a square's cell maps back to that square, for either orientation. */
  lemma CellRoundTrip(sq: Square, flip: bool, x: int, y: int)
    requires InCell(x, y, SquareToCoords(sq, flip))
    ensures CoordsToSquare(x, y, flip) == Some(sq)
  {
    var c := SquareToCoords(sq, flip);
    var file := if flip then 7 - FileOf(sq) else FileOf(sq);
    var rank := if flip then 7 - RankOf(sq) else RankOf(sq);
    assert (x - Padding) / CellSize == file by {
      assert x - Padding == file * CellSize + (x - c.0);
    }
    assert (y - Padding) / CellSize == 7 - rank by {
      assert y - Padding == (7 - rank) * CellSize + (y - c.1);
    }
  }

  /** In particular the corner returned by SquareToCoords maps back to the square. */
  lemma CornerRoundTrip(sq: Square, flip: bool)
    ensures CoordsToSquare(SquareToCoords(sq, flip).0, SquareToCoords(sq, flip).1, flip) == Some(sq)
  {
    CellRoundTrip(sq, flip, SquareToCoords(sq, flip).0, SquareToCoords(sq, flip).1);
  }

  /** Flipping the board reflects every cell through the board's centre. */
  lemma FlipIsPointReflection(sq: Square)
    ensures SquareToCoords(sq, true).0 + SquareToCoords(sq, false).0 == 2 * Padding + BoardSize - CellSize
    ensures SquareToCoords(sq, true).1 + SquareToCoords(sq, false).1 == 2 * Padding + BoardSize - CellSize
  {
  }
}

=== FILE: stats.dfy ===
/** The persisted statistics record and how each way of ending a game updates it. */
module Stats {
  import opened Utils
  import opened Chess

  /** The stored `last_result` letter: "", "W", "L" or "D". */
  datatype LastResult = NoResult | Won | Lost | Drawn

  datatype Stats = Stats(
    games: nat,
    wins: nat,
    losses: nat,
    draws: nat,
    bestStreak: nat,
    currentStreak: nat,
    lastResult: LastResult,
    lastGameTime: string)

  /** The best streak is never behind the streak in progress. */
  predicate StreakSane(st: Stats) {
    st.bestStreak >= st.currentStreak
  }

  /** Games that were scored for the player, as opposed to automatic games. */
  function Decided(st: Stats): nat {
    st.wins + st.losses + st.draws
  }

  /** How a finished game counts for the human player. */
  datatype Verdict = PlayerWon | PlayerLost | PlayerDrew

  /**
   * Classification of `board.result()` for the player: a draw result is a
   * draw, the player's colour winning is a win, and anything else, including
   * an unfinished "*", is a loss.
   */
  function Classify(result: GameResult, player: Color): (v: Verdict)
    ensures v == PlayerDrew <==> result == DrawResult
    ensures v == PlayerWon <==> (result == WhiteWins && player == White) || (result == BlackWins && player == Black)
  {
    if result == DrawResult then PlayerDrew
    else if (result == WhiteWins && player == White) || (result == BlackWins && player == Black) then PlayerWon
    else PlayerLost
  }

  function MirrorResult(result: GameResult): GameResult {
    match result
    case WhiteWins => BlackWins
    case BlackWins => WhiteWins
    case other => other
  }

  /** Swapping the colours of both the result and the player does not change the verdict. */
  lemma ClassifyColourSymmetric(result: GameResult, player: Color)
    ensures Classify(MirrorResult(result), Other(player)) == Classify(result, player)
  {
  }

  /** A decisive result is a win for exactly one of the two colours. */
  lemma DecisiveResultHasOneWinner(result: GameResult)
    requires result == WhiteWins || result == BlackWins
    ensures (Classify(result, White) == PlayerWon) != (Classify(result, Black) == PlayerWon)
    ensures Classify(result, White) == PlayerLost || Classify(result, Black) == PlayerLost
  {
  }

  /** Scores one game for the player: the counters, the streak and the last result. */
  function RecordVerdict(st: Stats, v: Verdict, now: string): (r: Stats)
    ensures r.games == st.games + 1
    ensures Decided(r) == Decided(st) + 1
    ensures r.wins == st.wins + (if v == PlayerWon then 1 else 0)
    ensures r.losses == st.losses + (if v == PlayerLost then 1 else 0)
    ensures r.draws == st.draws + (if v == PlayerDrew then 1 else 0)
    ensures v == PlayerWon ==>
      && r.currentStreak == st.currentStreak + 1
      && r.bestStreak == Max(st.bestStreak, st.currentStreak + 1)
      && r.lastResult == Won
    ensures v == PlayerLost ==> r.currentStreak == 0 && r.bestStreak == st.bestStreak && r.lastResult == Lost
    ensures v == PlayerDrew ==> r.currentStreak == 0 && r.bestStreak == st.bestStreak && r.lastResult == Drawn
    ensures r.bestStreak >= st.bestStreak && r.bestStreak >= r.currentStreak
    ensures r.lastGameTime == now
  {
    match v
    case PlayerWon =>
      var streak := st.currentStreak + 1;
      st.(games := st.games + 1, wins := st.wins + 1, currentStreak := streak,
          bestStreak := if st.bestStreak >= streak then st.bestStreak else streak,
          lastResult := Won, lastGameTime := now)
    case PlayerLost =>
      st.(games := st.games + 1, losses := st.losses + 1, currentStreak := 0,
          lastResult := Lost, lastGameTime := now)
    case PlayerDrew =>
      st.(games := st.games + 1, draws := st.draws + 1, currentStreak := 0,
          lastResult := Drawn, lastGameTime := now)
  }

  /**
   * `end_game`: every game is counted; a game that was automatic when
   * `end_game` started only updates the counter and the time, any other is
   * scored from the board result.
   */
  function RecordEndGame(st: Stats, result: GameResult, wasAuto: bool, player: Color, now: string): (r: Stats)
    ensures r.games == st.games + 1 && r.lastGameTime == now
    ensures wasAuto ==> r == st.(games := st.games + 1, lastGameTime := now)
    ensures !wasAuto ==> r == RecordVerdict(st, Classify(result, player), now)
    ensures !wasAuto ==> Decided(r) == Decided(st) + 1
    ensures !wasAuto && result == DrawResult ==>
      r == st.(games := st.games + 1, draws := st.draws + 1, currentStreak := 0, lastResult := Drawn, lastGameTime := now)
    ensures !wasAuto && Classify(result, player) == PlayerWon ==>
      r == st.(games := st.games + 1, wins := st.wins + 1, currentStreak := st.currentStreak + 1,
               bestStreak := Max(st.bestStreak, st.currentStreak + 1), lastResult := Won, lastGameTime := now)
    ensures !wasAuto && Classify(result, player) == PlayerLost ==>
      r == st.(games := st.games + 1, losses := st.losses + 1, currentStreak := 0, lastResult := Lost, lastGameTime := now)
    ensures StreakSane(st) ==> StreakSane(r)
  {
    if wasAuto then st.(games := st.games + 1, lastGameTime := now)
    else RecordVerdict(st, Classify(result, player), now)
  }

  /**
   * `flag_time`: the game is counted; the player loses when the flagged side
   * is the player's colour and wins otherwise.
   */
  function RecordFlag(st: Stats, flagged: Color, player: Color, now: string): (r: Stats)
    ensures r.games == st.games + 1 && Decided(r) == Decided(st) + 1 && r.lastGameTime == now
    ensures flagged == player ==>
      r == st.(games := st.games + 1, losses := st.losses + 1, currentStreak := 0, lastResult := Lost, lastGameTime := now)
    ensures flagged != player ==>
      r == st.(games := st.games + 1, wins := st.wins + 1, currentStreak := st.currentStreak + 1,
               bestStreak := Max(st.bestStreak, st.currentStreak + 1), lastResult := Won, lastGameTime := now)
    ensures r.draws == st.draws
    ensures StreakSane(st) ==> StreakSane(r)
  {
    RecordVerdict(st, if flagged == player then PlayerLost else PlayerWon, now)
  }

  /** `resign_game`: a resignation is always a loss for the player. */
  function RecordResign(st: Stats, now: string): (r: Stats)
    ensures r.games == st.games + 1 && r.losses == st.losses + 1
    ensures r.wins == st.wins && r.draws == st.draws && r.bestStreak == st.bestStreak
    ensures r.currentStreak == 0 && r.lastResult == Lost && r.lastGameTime == now
  {
    RecordVerdict(st, PlayerLost, now)
  }
}

=== FILE: trainer.dfy ===
/**
 * The packaged controller: the shared game logic plus opening training, in
 * which the moves of a scripted line are enforced for the player and played
 * automatically for the other side.
 */
module Trainer {
  import opened Wrappers
  import opened Utils
  import opened Chess
  import opened Clock
  import opened Stats
  import opened Game
  import opened Training

  datatype Session = Session(game: State, training: Training)

  /** The state after one event and the engine request it schedules. */
  datatype Outcome = Outcome(session: Session, request: Request)

  /** Settings read when a manual game starts, with the training switch and the chosen line. */
  datatype TrainerConfig = TrainerConfig(
    minutes: int, increment: int, color: Color, difficulty: int,
    trainingMode: bool, opening: seq<string>)

  datatype Event =
    | NewGame(cfg: TrainerConfig)
    | NewAutoGame(auto: AutoConfig)
    | StopAuto
    | HumanMove(mv: Move)
    | EngineReply(msg: EngineMessage)
    | ClockTick
    | UndoRequest
    | RedoRequest
    | ResignRequest(confirmed: bool)
    | TrainingOff

  ghost predicate Valid(rules: Rules, s: Session) {
    && Game.Valid(rules, s.game)
    && s.training.index <= |s.training.line|
    && LegalOrNullGame(rules, s.training.line)
  }

  /**
   * `finish_training_mode`: ends an active line; after a successful line the
   * engine is asked to move when it is ready, the game is not over, automatic
   * mode is off and it is not the player's turn. Nothing happens when no line
   * is active.
   */
  function FinishTraining(s: Session, rules: Rules, success: bool): (r: Outcome)
    ensures !s.training.active ==> r == Outcome(s, NoRequest)
    ensures s.training.active ==> r.session == s.(training := s.training.(active := false))
    ensures r.request != AutoMoveRequest
    ensures r.request == ManualMoveRequest <==>
      && s.training.active && success && s.game.engineReady && !rules.gameOver(s.game.board)
      && !s.game.autoMode && Turn(s.game.board) != s.game.player
  {
    if !s.training.active then Outcome(s, NoRequest)
    else
      var s1 := s.(training := s.training.(active := false));
      if success && s.game.engineReady && !rules.gameOver(s.game.board) && !s.game.autoMode
         && Turn(s.game.board) != s.game.player
      then Outcome(s1, ManualMoveRequest)
      else Outcome(s1, NoRequest)
  }

  /** The line's next move is the opponent's, and it cannot be played in the current position. */
  predicate LineBroken(s: Session, rules: Rules) {
    && s.training.active && s.training.index < |s.training.line| && Turn(s.game.board) != s.game.player
    && !rules.legal(s.game.board, s.training.line[s.training.index])
  }

  /**
   * `play_training_moves_until_player_turn`: while the line is active and
   * unfinished and it is not the player's turn, the expected move is played
   * (ending the line as a failure if it is illegal); at the end an exhausted
   * line or a finished game ends the line as a success.
   */
  function AutoPlay(s: Session, rules: Rules): (r: Outcome)
    decreases |s.training.line| - s.training.index
    ensures !s.training.active ==> r == Outcome(s, NoRequest)
    ensures r.session.training.line == s.training.line
    ensures r.session.training.index == s.training.index || r.session.training.index == s.training.index + 1
    ensures r.session.training.index == s.training.index ==> r.session.game == s.game
    ensures r.session.training.index == s.training.index + 1 ==>
      && s.training.active
      && s.training.index < |s.training.line|
      && Turn(s.game.board) != s.game.player
      && rules.legal(s.game.board, s.training.line[s.training.index])
      && r.session.game == PlayMove(s.game, s.training.line[s.training.index])
    ensures r.session.training.active ==>
      && Turn(r.session.game.board) == s.game.player
      && r.session.training.index < |s.training.line|
      && !rules.gameOver(r.session.game.board)
    ensures LineBroken(s, rules) ==> r == Outcome(s.(training := s.training.(active := false)), NoRequest)
    ensures s.training.active ==>
      (r.session.training.active <==>
         !LineBroken(s, rules) && r.session.training.index < |s.training.line| && !rules.gameOver(r.session.game.board))
    ensures r.request == ManualMoveRequest <==>
      && s.training.active && !r.session.training.active && !LineBroken(s, rules)
      && r.session.game.engineReady && !rules.gameOver(r.session.game.board)
      && !r.session.game.autoMode && Turn(r.session.game.board) != s.game.player
    ensures r.request != AutoMoveRequest
  {
    var t := s.training;
    if !t.active then Outcome(s, NoRequest)
    else if t.index < |t.line| && Turn(s.game.board) != s.game.player then
      var expected := t.line[t.index];
      if !rules.legal(s.game.board, expected) then FinishTraining(s, rules, false)
      else AutoPlay(Session(PlayMove(s.game, expected), t.(index := t.index + 1)), rules)
    else if rules.gameOver(s.game.board) || t.index >= |t.line| then FinishTraining(s, rules, true)
    else Outcome(s, NoRequest)
  }

  /**
   * The part of `make_move` after the training check. Outside training it is
   * the shared `make_move`; during training the move is credited and pushed,
   * the redo stack emptied, and then the line either ends (the game is over)
   * or is auto-played up to the player's turn, with no end of game and no
   * scoring.
   */
  function Commit(s: Session, rules: Rules, mv: Move, advance: bool, now: string): (r: Outcome)
    requires advance ==> s.training.active && s.training.index < |s.training.line|
    ensures |r.session.game.board| >= |s.game.board| + 1
    ensures r.session.game.board[..|s.game.board| + 1] == s.game.board + [mv]
    ensures r.session.game.redo == []
    ensures r.session.training.line == s.training.line
    ensures advance ==> r.session.training.index >= s.training.index + 1
    ensures r.session.training.index <= s.training.index + (if advance then 1 else 0) + 1
    ensures var mover := Turn(s.game.board);
      Remaining(r.session.game.clock, mover) == Remaining(CreditIncrement(s.game.clock, mover), mover)
    ensures r.session.game.clock.increment == s.game.clock.increment
    ensures !s.training.active ==>
      var step := Game.MakeMove(s.game, rules, mv, now);
      r == Outcome(Session(step.state, s.training), step.request)
    ensures s.training.active ==>
      && r.session.game.stats == s.game.stats && r.session.game.gameActive == s.game.gameActive
      && r.session.game.autoMode == s.game.autoMode && r.request != AutoMoveRequest
    ensures s.training.active && rules.gameOver(s.game.board + [mv]) ==>
      var t1 := if advance then s.training.(index := s.training.index + 1) else s.training;
      r == Outcome(Session(PlayMove(s.game, mv).(redo := []), t1.(active := false)), NoRequest)
    ensures s.training.active && !rules.gameOver(s.game.board + [mv]) ==>
      r == AutoPlay(Session(PlayMove(s.game, mv).(redo := []),
                            if advance then s.training.(index := s.training.index + 1) else s.training), rules)
  {
    if !s.training.active then
      var step := Game.MakeMove(s.game, rules, mv, now);
      Outcome(Session(step.state, s.training), step.request)
    else ContinueLine(Session(PlayMove(s.game, mv).(redo := []),
                              if advance then s.training.(index := s.training.index + 1) else s.training), rules)
  }

  /**
   * What follows a player's move during training: a finished game ends the
   * line as a success, otherwise the line is auto-played up to the player's turn.
   */
  function ContinueLine(s: Session, rules: Rules): (r: Outcome)
    requires s.training.active
    ensures |s.game.board| <= |r.session.game.board| <= |s.game.board| + 1
    ensures r.session.game.board[..|s.game.board|] == s.game.board
    ensures r.session.game.redo == s.game.redo && r.session.training.line == s.training.line
    ensures r.session.training.index == s.training.index || r.session.training.index == s.training.index + 1
    ensures Remaining(r.session.game.clock, Other(Turn(s.game.board))) == Remaining(s.game.clock, Other(Turn(s.game.board)))
    ensures r.session.game.clock.increment == s.game.clock.increment
    ensures r.session.game.stats == s.game.stats && r.session.game.gameActive == s.game.gameActive
    ensures r.session.game.autoMode == s.game.autoMode && r.request != AutoMoveRequest
    ensures rules.gameOver(s.game.board) ==> r.session.game == s.game && !r.session.training.active && r.request == NoRequest
    ensures !rules.gameOver(s.game.board) ==> r == AutoPlay(s, rules)
  {
    if rules.gameOver(s.game.board) then FinishTraining(s, rules, true)
    else AutoPlay(s, rules)
  }

  /**
   * `make_move`. On the player's turn during training the move must be the
   * line's expected move: any other move is refused with nothing changed,
   * and once the line is exhausted the line is finished instead of playing.
   */
  function MakeMove(s: Session, rules: Rules, mv: Move, now: string): (r: Outcome)
    ensures var t := s.training;
      t.active && Turn(s.game.board) == s.game.player && t.index < |t.line| && mv != t.line[t.index]
      ==> r == Outcome(s, NoRequest)
    ensures var t := s.training;
      t.active && Turn(s.game.board) == s.game.player && t.index >= |t.line|
      ==> r == Outcome(s.(training := t.(active := false)), NoRequest)
    ensures var t := s.training;
      t.active && Turn(s.game.board) == s.game.player && t.index < |t.line| && mv == t.line[t.index]
      ==> r == Commit(s, rules, mv, true, now)
    ensures !(s.training.active && Turn(s.game.board) == s.game.player) ==> r == Commit(s, rules, mv, false, now)
  {
    var t := s.training;
    if t.active && Turn(s.game.board) == s.game.player then
      if t.index >= |t.line| then FinishTraining(s, rules, true)
      else if mv != t.line[t.index] then Outcome(s, NoRequest)
      else Commit(s, rules, mv, true, now)
    else Commit(s, rules, mv, false, now)
  }

  /** The player's move is accepted: the click checks pass and, during training, it is the expected move. */
  predicate Accepted(s: Session, rules: Rules, mv: Move) {
    && MayPlay(s.game, rules, mv)
    && (!s.training.active || (s.training.index < |s.training.line| && mv == s.training.line[s.training.index]))
  }

  /**
   * A move entered on the board. The board changes exactly when the move is
   * accepted, and then it starts with the move; an accepted move empties the
   * redo stack and advances an active line.
   */
  function SubmitMove(s: Session, rules: Rules, mv: Move, now: string): (r: Outcome)
    ensures !MayPlay(s.game, rules, mv) ==> r == Outcome(s, NoRequest)
    ensures r.session.game.board != s.game.board <==> Accepted(s, rules, mv)
    ensures Accepted(s, rules, mv) ==>
      && |r.session.game.board| >= |s.game.board| + 1
      && r.session.game.board[..|s.game.board| + 1] == s.game.board + [mv]
      && r.session.game.redo == []
      && (s.training.active ==> r.session.training.index >= s.training.index + 1)
    ensures !Accepted(s, rules, mv) ==> r.session.game == s.game && r.session.training.index == s.training.index
    ensures Accepted(s, rules, mv) ==>
      var mover := Turn(s.game.board);
      Remaining(r.session.game.clock, mover) == Remaining(CreditIncrement(s.game.clock, mover), mover)
    ensures Accepted(s, rules, mv) && !s.training.active ==>
      var step := Game.MakeMove(s.game, rules, mv, now);
      r == Outcome(Session(step.state, s.training), step.request)
    ensures Accepted(s, rules, mv) && s.training.active ==>
      && r.session.game.stats == s.game.stats && r.session.game.gameActive
      && r.request != AutoMoveRequest
      && (rules.gameOver(s.game.board + [mv]) ==> !r.session.training.active && r.request == NoRequest)
    ensures Accepted(s, rules, mv) && s.training.active && !rules.gameOver(s.game.board + [mv]) ==>
      r == AutoPlay(Session(PlayMove(s.game, mv).(redo := []), s.training.(index := s.training.index + 1)), rules)
    ensures Accepted(s, rules, mv) && s.training.active && rules.gameOver(s.game.board + [mv]) ==>
      r == Outcome(Session(PlayMove(s.game, mv).(redo := []),
                           s.training.(index := s.training.index + 1, active := false)), NoRequest)
    ensures MayPlay(s.game, rules, mv) ==> r == MakeMove(s, rules, mv, now)
    ensures r.request == ManualMoveRequest && s.game.engineReady ==> ManualSearchStarts(r.session.game)
  {
    if MayPlay(s.game, rules, mv) then MakeMove(s, rules, mv, now) else Outcome(s, NoRequest)
  }

  /**
   * `start_new_game`: refused when neither the engine is ready nor a
   * non-empty line was requested. Otherwise the shared fresh game starts with
   * the training state reset; a requested line that loads is auto-played up
   * to the player's turn, and without an active line a player with Black
   * asks the engine to open.
   */
  function StartNewGame(s: Session, rules: Rules, cfg: TrainerConfig, now: string): (r: Outcome)
    ensures !s.game.engineReady && !(cfg.trainingMode && |cfg.opening| > 0) ==> r == Outcome(s, NoRequest)
    ensures s.game.engineReady || (cfg.trainingMode && |cfg.opening| > 0) ==>
      && r.session.game.redo == [] && |r.session.game.board| <= 1
      && r.session.game.gameActive && !r.session.game.autoMode
      && r.session.game.player == cfg.color && r.session.game.stats == s.game.stats
      && r.session.game.clock.black == Clamp(cfg.minutes, 1, 180) * 60
      && r.session.game.clock.white == Clamp(cfg.minutes, 1, 180) * 60 - 1
           + (if |r.session.game.board| == 1 then Clamp(cfg.increment, 0, 60) else 0)
      && r.session.training.index == |r.session.game.board|
      && (r.session.training.active ==> Turn(r.session.game.board) == cfg.color)
      && (cfg.trainingMode && InitializeLine(rules, cfg.opening).1 ==>
            r == AutoPlay(Session(Tick(FreshManualGame(s.game, cfg.minutes, cfg.increment, cfg.color, cfg.difficulty), now),
                                  InitializeLine(rules, cfg.opening).0), rules))
      && (!(cfg.trainingMode && InitializeLine(rules, cfg.opening).1) ==>
            && r.session.training == Reset && r.session.game.board == []
            && r.session.game == Tick(FreshManualGame(s.game, cfg.minutes, cfg.increment, cfg.color, cfg.difficulty), now)
            && (r.request == ManualMoveRequest <==> cfg.color == Black))
  {
    var requested := cfg.trainingMode && |cfg.opening| > 0;
    if !s.game.engineReady && !requested then Outcome(s, NoRequest)
    else
      var g1 := FreshManualGame(s.game, cfg.minutes, cfg.increment, cfg.color, cfg.difficulty);
      var loaded := if requested then InitializeLine(rules, cfg.opening) else (Reset, false);
      var s1 := Session(Tick(g1, now), loaded.0);
      if loaded.1 then AutoPlay(s1, rules)
      else Outcome(s1, if cfg.color == Black then ManualMoveRequest else NoRequest)
  }

  /** `resign_game`, which also ends an active line. */
  function Resign(s: Session, confirmed: bool, now: string): (r: Session)
    ensures !(s.game.gameActive && confirmed) ==> r == s
    ensures s.game.gameActive && confirmed ==>
      r.game == Game.Resign(s.game, confirmed, now) && !r.training.active
      && r.training.line == s.training.line && r.training.index == s.training.index
  {
    if s.game.gameActive && confirmed then Session(Game.Resign(s.game, confirmed, now), s.training.(active := false))
    else s
  }

  /** One engine-queue message; when it ends the game, `end_game` also ends an active line. */
  function EngineReply(s: Session, rules: Rules, msg: EngineMessage, now: string): (r: Outcome)
    ensures r.session.game == HandleEngineMessage(s.game, rules, msg, now).state
    ensures r.request == HandleEngineMessage(s.game, rules, msg, now).request
    ensures HandleEngineMessage(s.game, rules, msg, now).ended ==> !r.session.training.active
    ensures !HandleEngineMessage(s.game, rules, msg, now).ended ==> r.session.training == s.training
  {
    var step := HandleEngineMessage(s.game, rules, msg, now);
    var t := if step.ended then s.training.(active := false) else s.training;
    Outcome(Session(step.state, t), step.request)
  }

  /** The controller's reaction to one event. */
  function Next(s: Session, rules: Rules, ev: Event, now: string): Outcome {
    match ev
    case NewGame(cfg) => StartNewGame(s, rules, cfg, now)
    case NewAutoGame(auto) =>
      var step := StartAutoGame(s.game, auto, now);
      Outcome(Session(step.state, s.training), step.request)
    case StopAuto => Outcome(s.(game := StopAutoGame(s.game)), NoRequest)
    case HumanMove(mv) => SubmitMove(s, rules, mv, now)
    case EngineReply(msg) => EngineReply(s, rules, msg, now)
    case ClockTick => Outcome(s.(game := Tick(s.game, now)), NoRequest)
    case UndoRequest => Outcome(s.(game := Undo(s.game)), NoRequest)
    case RedoRequest => Outcome(s.(game := Redo(s.game, rules)), NoRequest)
    case ResignRequest(confirmed) => Outcome(Resign(s, confirmed, now), NoRequest)
    case TrainingOff => Outcome(s.(training := Reset), NoRequest)
  }

  lemma {:induction false} AutoPlayValid(s: Session, rules: Rules)
    requires Valid(rules, s)
    ensures Valid(rules, AutoPlay(s, rules).session)
  {
    var r := AutoPlay(s, rules);
    if r.session.training.index == s.training.index + 1 {
      PlayMoveValid(rules, s.game, s.training.line[s.training.index]);
    }
  }

  lemma {:induction false} SubmitMoveValid(s: Session, rules: Rules, mv: Move, now: string)
    requires Valid(rules, s)
    ensures Valid(rules, SubmitMove(s, rules, mv, now).session)
  {
    var t := s.training;
    if MayPlay(s.game, rules, mv) && !(t.active && Turn(s.game.board) == s.game.player && (t.index >= |t.line| || mv != t.line[t.index])) {
      var advance := t.active && Turn(s.game.board) == s.game.player;
      PlayMoveValid(rules, s.game, mv);
      var g1 := PlayMove(s.game, mv).(redo := []);
      var t1 := if advance then t.(index := t.index + 1) else t;
      var s1 := Session(g1, t1);
      assert Valid(rules, s1);
      if t1.active && !rules.gameOver(g1.board) {
        AutoPlayValid(s1, rules);
      }
    }
  }

  /**
   * Every event keeps the board a legal game with the last move on top, the
   * clocks non-negative, the statistics consistent, and the training line
   * made of moves legal where they stand or null, with the index within it.
   */
  lemma {:induction false} NextPreservesValid(s: Session, rules: Rules, ev: Event, now: string)
    requires SanSound(rules)
    requires Valid(rules, s)
    ensures Valid(rules, Next(s, rules, ev, now).session)
  {
    match ev
    case NewGame(cfg) =>
      var requested := cfg.trainingMode && |cfg.opening| > 0;
      if s.game.engineReady || requested {
        var g1 := FreshManualGame(s.game, cfg.minutes, cfg.increment, cfg.color, cfg.difficulty);
        var loaded := if requested then InitializeLine(rules, cfg.opening) else (Reset, false);
        InitializeLineLegal(rules, cfg.opening);
        var s1 := Session(Tick(g1, now), loaded.0);
        assert Valid(rules, s1);
        if loaded.1 {
          AutoPlayValid(s1, rules);
        }
      }
    case HumanMove(mv) =>
      SubmitMoveValid(s, rules, mv, now);
    case EngineReply(msg) =>
      HandleEngineMessageValid(s.game, rules, msg, now);
    case UndoRequest =>
      UndoValid(rules, s.game);
    case RedoRequest =>
      RedoValid(rules, s.game);
    case _ =>
  }

  /**
   * A player's move that ends the game during training only ends the line:
   * `end_game` is not called, so the game stays active and nothing is scored.
   */
  lemma GameOverDuringTrainingNotScored(s: Session, rules: Rules, mv: Move, now: string)
    requires Accepted(s, rules, mv) && s.training.active
    requires rules.gameOver(s.game.board + [mv])
    ensures var r := SubmitMove(s, rules, mv, now);
      && r.session.game.gameActive && r.session.game.stats == s.game.stats
      && r.session.game.board == s.game.board + [mv]
      && !r.session.training.active && r.request == NoRequest
      && r.session.game == PlayMove(s.game, mv).(redo := [])
      && r.session.training == s.training.(index := s.training.index + 1, active := false)
  {
  }

  /**
   * Unticking the training switch during a game ends the line: from then on
   * a board move is accepted exactly when the click checks pass, and the game
   * itself is untouched.
   */
  lemma TrainingOffFreesPlay(s: Session, rules: Rules, mv: Move, now: string)
    ensures var r := Next(s, rules, TrainingOff, now);
      && r.session.game == s.game && r.request == NoRequest && !r.session.training.active
      && (Accepted(r.session, rules, mv) <==> MayPlay(s.game, rules, mv))
  {
  }

  /**
   * The opening scenario: with the line [a, b, c] loaded for White, a move
   * other than a is refused with nothing changed, while a is played and the
   * sequencer at once answers with b, leaving the index at 2.
   */
  lemma TrainingScenario(s: Session, rules: Rules, a: Move, b: Move, c: Move, d: Move, now: string)
    requires s.training == Training([a, b, c], 0, true)
    requires s.game.board == [] && s.game.player == White && s.game.gameActive && !s.game.autoMode
    requires rules.legal([], a) && rules.legal([], d) && d != a
    requires rules.legal([a], b) && !rules.gameOver([a]) && !rules.gameOver([a, b])
    ensures SubmitMove(s, rules, d, now) == Outcome(s, NoRequest)
    ensures SubmitMove(s, rules, a, now).session.game.board == [a, b]
    ensures SubmitMove(s, rules, a, now).session.training == Training([a, b, c], 2, true)
    ensures SubmitMove(s, rules, a, now).request == NoRequest
  {
    var s1 := Session(PlayMove(s.game, a).(redo := []), Training([a, b, c], 1, true));
    assert s1.game.board == [a];
    var s2 := Session(PlayMove(s1.game, b), Training([a, b, c], 2, true));
    assert s2.game.board == [a, b];
    assert AutoPlay(s2, rules) == Outcome(s2, NoRequest);
    assert AutoPlay(s1, rules) == Outcome(s2, NoRequest);
  }
}

=== FILE: training.dfy ===
/** The scripted opening line: its state and how it is read from move notation. */
module Training {
  import opened Wrappers
  import opened Chess

  /** `training_line`, `training_index` and `training_active`. */
  datatype Training = Training(line: seq<Move>, index: nat, active: bool)

  /** `reset_training_state`. */
  const Reset := Training([], 0, false)

  /** Each notation entry parses, in order, to the corresponding move, starting from `from`. */
  ghost predicate ParsesAs(rules: Rules, from: Board, sans: seq<string>, moves: seq<Move>) {
    |moves| == |sans| &&
    forall i :: 0 <= i < |sans| ==> rules.parseSan(from + moves[..i], sans[i]) == Some(moves[i])
  }

  lemma {:induction false} ParsesAsCons(rules: Rules, from: Board, sans: seq<string>, m: Move, rest: seq<Move>)
    requires |sans| > 0
    requires rules.parseSan(from, sans[0]) == Some(m)
    ensures ParsesAs(rules, from + [m], sans[1..], rest) <==> ParsesAs(rules, from, sans, [m] + rest)
  {
    var moves := [m] + rest;
    assert moves[..0] == [];
    assert from + moves[..0] == from;
    forall i | 1 <= i <= |rest|
      ensures from + moves[..i] == (from + [m]) + rest[..i - 1]
      ensures moves[i] == rest[i - 1]
    {
      assert moves[..i] == [m] + rest[..i - 1];
    }
  }

  /**
   * The replay on a scratch board in `initialize_training_line`: parse each
   * entry in the position reached so far and push it, failing at the first
   * entry that does not parse.
   */
  function ParseLine(rules: Rules, from: Board, sans: seq<string>): (r: Option<seq<Move>>)
    ensures r.Some? ==> ParsesAs(rules, from, sans, r.value)
    decreases |sans|
  {
    if |sans| == 0 then Some([])
    else
      match rules.parseSan(from, sans[0])
      case None => None
      case Some(m) =>
        match ParseLine(rules, from + [m], sans[1..])
        case None => None
        case Some(rest) =>
          ParsesAsCons(rules, from, sans, m, rest);
          Some([m] + rest)
  }

  /** Whenever the entries parse in order, the replay finds exactly those moves. */
  lemma {:induction false} ParseLineComplete(rules: Rules, from: Board, sans: seq<string>, moves: seq<Move>)
    requires ParsesAs(rules, from, sans, moves)
    ensures ParseLine(rules, from, sans) == Some(moves)
    decreases |sans|
  {
    if |sans| > 0 {
      assert from + moves[..0] == from;
      var m := moves[0];
      assert moves == [m] + moves[1..];
      ParsesAsCons(rules, from, sans, m, moves[1..]);
      ParseLineComplete(rules, from + [m], sans[1..], moves[1..]);
    } else {
      assert moves == [];
    }
  }

  /**
   * Every move of a parsed line is legal where it stands or is the null move,
   * since parsing yields nothing else.
   */
  lemma {:induction false} ParsedLineLegal(rules: Rules, from: Board, sans: seq<string>, moves: seq<Move>)
    requires SanSound(rules)
    requires LegalOrNullGame(rules, from)
    requires ParsesAs(rules, from, sans, moves)
    ensures LegalOrNullGame(rules, from + moves)
  {
    var b := from + moves;
    forall i | 0 <= i < |b|
      ensures rules.legal(b[..i], b[i]) || b[i] == NullMove
    {
      if i < |from| {
        assert b[..i] == from[..i];
      } else {
        var k := i - |from|;
        assert b[..i] == from + moves[..k];
        assert rules.parseSan(from + moves[..k], sans[k]) == Some(moves[k]);
      }
    }
  }

  /**
   * `initialize_training_line`: the training state is reset, then the line
   * becomes active at index 0 exactly when it is non-empty and every entry
   * parses, in order, from the initial position.
   */
  function InitializeLine(rules: Rules, sans: seq<string>): (r: (Training, bool))
    ensures r.1 ==> r.0.active && r.0.index == 0 && ParsesAs(rules, [], sans, r.0.line)
    ensures !r.1 ==> r.0 == Reset
    ensures r.1 ==> |sans| > 0
  {
    if |sans| == 0 then (Reset, false)
    else
      match ParseLine(rules, [], sans)
      case None => (Reset, false)
      case Some(moves) => (Training(moves, 0, true), true)
  }

  /** Loading succeeds if and only if the line is non-empty and parses from the initial position. */
  lemma InitializeLineIff(rules: Rules, sans: seq<string>)
    ensures InitializeLine(rules, sans).1 <==> |sans| > 0 && exists moves :: ParsesAs(rules, [], sans, moves)
  {
    if |sans| > 0 && exists moves :: ParsesAs(rules, [], sans, moves) {
      var moves :| ParsesAs(rules, [], sans, moves);
      ParseLineComplete(rules, [], sans, moves);
    }
  }

  /** Every move of a loaded line is legal where it stands in the line, or is the null move. */
  lemma InitializeLineLegal(rules: Rules, sans: seq<string>)
    requires SanSound(rules)
    ensures LegalOrNullGame(rules, InitializeLine(rules, sans).0.line)
  {
    var r := InitializeLine(rules, sans);
    if r.1 {
      ParsedLineLegal(rules, [], sans, r.0.line);
      assert [] + r.0.line == r.0.line;
    }
  }
}

=== FILE: utils.dfy ===
/** The `clamp` helper used to sanitise the time, increment and Elo settings. */
module Utils {

  function Min(a: int, b: int): int { if a <= b then a else b }

  function Max(a: int, b: int): int { if a >= b then a else b }

  /** `max(vmin, min(v, vmax))`, exactly as the controller writes it. */
  function Clamp(v: int, vmin: int, vmax: int): (r: int)
    ensures vmin <= vmax ==> vmin <= r <= vmax
    ensures vmin <= v <= vmax ==> r == v
    ensures v < vmin ==> r == vmin
    ensures vmax < v ==> r == Max(vmin, vmax)
    ensures r >= vmin
  {
    Max(vmin, Min(v, vmax))
  }

  /** Clamping an already clamped value changes nothing. */
  lemma ClampIdempotent(v: int, vmin: int, vmax: int)
    ensures Clamp(Clamp(v, vmin, vmax), vmin, vmax) == Clamp(v, vmin, vmax)
  {
  }

  /** Clamping is monotone: it never reorders two settings. */
  lemma ClampMonotone(v: int, w: int, vmin: int, vmax: int)
    requires v <= w
    ensures Clamp(v, vmin, vmax) <= Clamp(w, vmin, vmax)
  {
  }
}

=== FILE: wrappers.dfy ===
/** The optional value used wherever the controller stores `None` or a value. */
module Wrappers {

  datatype Option<+T> = None | Some(value: T)
}
